=== FILE: README.md ===
# Invoice processing API: upload and batch-start routers in Dafny

This project models the request-handling logic of two FastAPI routers of a
small invoice-processing backend:

- `POST /upload/invoice` (`routers/upload.py`) accepts a JSON body with a
  file name, a content type and a base64 payload, validates it, decodes the
  payload and stores the bytes in the `invoicebatch` blob container under the
  name `<UTC timestamp>_<slug of the file name>`. The slug comes from
  `slugify_filename`, which keeps the last path component, folds the name to
  ASCII, replaces runs of unsafe characters with `_`, collapses repeated `_`,
  trims `.`, `_` and `-` from both ends and falls back to `file`.
- `POST /docint/batch/start` (`routers/docint.py`) checks a shared secret
  sent in the `x-flow-secret` header, reads the Document Intelligence and
  storage configuration, builds an `analyzeBatch` request for the
  `prebuilt-invoice` model over the source container, sends it, maps any
  non-2xx answer to an error carrying the upstream status and at most 500
  characters of the answer, and on success reports the job's result id, taken
  from the last path segment of the `operation-location` header.

Everything is a total, pure function over `seq<char>`; each `HTTPException`
becomes an `HttpError(status, detail)` inside a `Result` or `Outcome`.
The environment, the clock, the network, blob storage and the library codecs
are parameters (see "Left out").

Files:

- `http.dfy` (module `Http`): `HttpError`, `Result`, `Outcome`, `Option`, and the empty-default lookup used for headers and the environment.
- `strings.dfy` (module `Strings`): `split(c)[-1]`, `split(c, 1)[1]`,
  `lstrip`/`rstrip`/`strip`, slicing and `or` on strings, with lemmas.
- `slug.dfy` (module `Slug`): `slugify_filename`, stage by stage, and its output invariants.
- `upload.dfy` (module `Upload`): `upload_invoice`.
- `docint.dfy` (module `DocInt`): `get_container_url`, `extract_result_id`,
  `require_flow_secret`, `start_invoice_batch`.

## Model

| member | source | states |
|---|---|---|
| Http.Lookup | routers/docint.py:43-50 | `headers.get(name, "")` and `os.getenv(name) or ""`: the stored value when the key is present, `""` otherwise |
| Strings.OrElse | routers/upload.py:43-44 | Python's `s or d` on strings: `d` exactly when `s` is empty, `s` otherwise |
| Strings.AfterLast | routers/docint.py:30 | `split(c)[-1]`: the result has no `c`, is a suffix of the input, and is either the whole input or preceded by `c` (which determines it uniquely) |
| Strings.AfterLastJoin | routers/upload.py:23 | whatever precedes a separator never affects the last segment |
| Strings.AfterFirst | routers/upload.py:56 | `split(c, 1)[1]`: the suffix right after the first `c`, with no `c` before it |
| Strings.AfterFirstJoin | routers/upload.py:55-56 | splitting `p + c + q` at the first `c` gives back `q` if and only if `p` has no `c` (both directions) |
| Strings.StripStart | routers/upload.py:33 | where `strip(cs)` starts: the length of the longest prefix made of characters of `cs` |
| Strings.Strip | routers/upload.py:33 | `strip(cs)`: the piece of the input from `StripStart`, with everything before and after it in `cs` and neither of its own ends in `cs`; a string with clean ends is unchanged |
| Strings.TrimEnd | routers/docint.py:70 | `rstrip(cs)`: the longest prefix not ending in `cs`; only characters of `cs` are removed |
| Strings.Take | routers/docint.py:122 | `s[:n]`: a prefix of at most `n` characters, all of `s` when it is short enough |
| Slug.LastComponent | routers/upload.py:23 | the kept name has neither `\` nor `/` and is a suffix of the input |
| Slug.AsciiOnly | routers/upload.py:27 | the ASCII-ignore encode leaves only ASCII characters, never lengthens the name, keeps a single ASCII character and drops a single non-ASCII one |
| Slug.AsciiOnlyAppend | routers/upload.py:27 | the encode of a concatenation is the concatenation of the encodes, so exactly the ASCII characters survive, in order |
| Slug.AsciiOnlyKeepsAscii | routers/upload.py:27 | the ASCII-ignore encode is the identity on ASCII strings |
| Slug.ReplaceUnsafeRuns | routers/upload.py:30 | every character of the result is in `[A-Za-z0-9._-]`; apart from `_`, the result holds exactly the input's safe characters, in order; the result is empty exactly when the input is |
| Slug.SkipUnsafeKeepsSafeLetters | routers/upload.py:30 | skipping a run of unsafe characters loses no safe character |
| Slug.SkipUnsafeRun | routers/upload.py:30 | a run made only of unsafe characters is consumed whole, up to the first safe character after it |
| Slug.ReplaceUnsafeRunsSplit | routers/upload.py:30 | a cut after a safe character commutes with the replacement: replacing `a + b` gives the replacement of `a` followed by the replacement of `b`, so every `_` stays where its run was |
| Slug.ReplaceUnsafeRunsRun | routers/upload.py:30 | a non-empty maximal run of unsafe characters becomes exactly one `_`, put in the run's place in front of the replacement of what follows |
| Slug.ReplaceKeepsSafe | routers/upload.py:30 | a string already over `[A-Za-z0-9._-]` is unchanged by the replacement |
| Slug.CollapseUnderscores | routers/upload.py:33 | the result has no `__`; apart from `_` it holds exactly the input's characters, in order; it keeps the alphabet and the first character and is never longer than the input |
| Slug.CollapseUnderscoresSplit | routers/upload.py:33 | a cut after a character other than `_` commutes with collapsing: collapsing `a + b` gives the collapse of `a` followed by the collapse of `b` |
| Slug.CollapseUnderscoresRun | routers/upload.py:33 | a non-empty maximal run of `_` becomes exactly one `_`, in the run's place in front of the collapse of what follows |
| Slug.CollapseKeepsClean | routers/upload.py:33 | a string without `__` is unchanged by the collapse |
| Slug.Sanitize | routers/upload.py:23-33 | the name after stages 1 to 5 is over `[A-Za-z0-9._-]`, free of `__`, and, when non-empty, neither starts nor ends with `.`, `_` or `-` |
| Slug.Slugify | routers/upload.py:21-35 | for every name and every normalisation the result is non-empty, over `[A-Za-z0-9._-]`, free of `__`, `/` and `\`, and neither starts nor ends with `.`, `_` or `-`; it falls back to `file` when sanitising leaves nothing and is the sanitised name otherwise |
| Slug.SlugifyFixedPoints | routers/upload.py:21-35 | for a normalisation that fixes safe strings, a name is left unchanged exactly when it is a well-formed slug |
| Slug.SlugifyIdempotent | routers/upload.py:21-35 | slugifying a slug again changes nothing |
| Slug.SlugifyIgnoresDirectory | routers/upload.py:23 | `slugify(d + "/" + n) == slugify(n)` and `slugify(d + "\\" + n) == slugify(n)` for all `d` and `n` |
| Upload.FieldOr | routers/upload.py:43-45 | an absent, `null` or empty field takes the default; any other value is kept |
| Upload.StripDataUrlPrefix | routers/upload.py:55-56 | with a comma, only the text after the first comma reaches the decoder; without one, the payload is unchanged |
| Upload.DataUrlPayloadRecovered | routers/upload.py:55-56 | a data URL whose header has no comma yields exactly its payload, commas in the payload included |
| Upload.BlobName | routers/upload.py:65-67 | the blob name is the timestamp, `_`, then a well-formed slug; it holds no path separator the timestamp does not |
| Upload.BlobNameSeparatesSlugs | routers/upload.py:65-67 | with one timestamp, two blob names coincide exactly when the file names' slugs do |
| Upload.UploadInvoice | routers/upload.py:38-87 | a missing or empty payload is 400 whatever the content type; otherwise a non-PDF content type is 415; otherwise a payload the decoder rejects is 400 `InvalidBase64`, and bytes the store refuses give a 500 whose detail is the prefix followed by the store's error text; success means the decoder accepted the stripped payload, the store accepted those bytes under the slugified name, and `size` is the decoded length; every error is 400, 415 or 500 |
| Upload.UploadSucceedsWhenAllAccept | routers/upload.py:43-80 | the upload succeeds exactly when the payload is present, the type is PDF, the payload decodes and the store accepts |
| DocInt.ContainerUrl | routers/docint.py:13-18 | the URL is `https://`, the account, `.blob.core.windows.net/`, then the container |
| DocInt.ContainerUrlInjective | routers/docint.py:13-18 | for account names without `.`, equal container URLs have equal accounts and containers |
| DocInt.ResultIdFromPath | routers/docint.py:29-30 | the id has no `/` and is the last segment of the path with trailing `/` removed |
| DocInt.ExtractResultId | routers/docint.py:21-32 | an unparsable URL gives `""`; otherwise the id is the last segment of its path |
| DocInt.ResultIdIsLastSegment | routers/docint.py:29-30 | `p + "/" + s` with `s` non-empty and slash-free yields exactly `s` |
| DocInt.ResultIdIgnoresTrailingSlash | routers/docint.py:29-30 | the id of `p + "/"` is the id of `p` |
| DocInt.CheckSecret | routers/docint.py:43-54 | an unset secret is 500 whatever is provided; a missing header is 401; a non-ASCII secret or header value is the 500 of the uncaught `TypeError` from `compare_digest`; between ASCII strings a mismatch is 401; the check passes exactly when the secret is set, ASCII, and equal to the header |
| DocInt.RequireFlowSecret | routers/docint.py:35-54 | passes exactly when the configured secret is set, ASCII, and equal to the `x-flow-secret` header (default `""`); an unset secret is the 500 "FLOW_SHARED_SECRET nincs beállítva a szerveren." whatever the header; a set secret with a missing header is 401; failures are 401 or 500, and a 500 means the secret is unset or one of the two values is not ASCII |
| DocInt.ReadBatchConfig | routers/docint.py:69-78 | the endpoint loses its trailing `/`; unset or empty container names default to `invoicebatch` and `invoicebatch-result`, so neither is ever empty |
| DocInt.BuildBatchRequest | routers/docint.py:80-104 | an empty endpoint, key or account is a 500 before any request exists; otherwise the request targets the `prebuilt-invoice` `analyzeBatch` URL with API version `2024-11-30`, the key, a 60 s timeout, and a body with both container URLs and `overwriteExisting` true |
| DocInt.CheckUpstream | routers/docint.py:117-123 | success exactly for statuses in [200, 300); any other status becomes an error with that status and the first `min(500, len(body))` characters of the body |
| DocInt.StartBatch | routers/docint.py:57-138 | the secret is checked first, then the configuration; a request the client could not complete is a 500; a started batch sent a request with overwrite on and the configured containers, got a 2xx answer, and reports the location header and its result id; an answer outside 2xx is exactly the upstream error of `CheckUpstream`: the upstream status with the prefix and the body excerpt |
| DocInt.StartedExactlyOn2xx | routers/docint.py:66-138 | a batch is started if and only if the secret is accepted, the configuration is complete and the service answers with a 2xx status |
| DocInt.RejectedBeforeSending | routers/docint.py:66-84 | a request refused for its secret or configuration ends the same way whatever the service would answer, so nothing is sent |
| DocInt.MissingLocationStillOk | routers/docint.py:125-134 | a 2xx answer without `operation-location` still reports `ok` with location `""` and result id `""` |
| DocInt.UpstreamFailurePassedThrough | routers/docint.py:117-123 | a non-2xx answer to an authorised, configured request is an error with the service's status whose detail is `Batch indítás hiba: ` followed by the first 500 characters of the answer's body (all of it when shorter) |

## Left out

- The HTTP POST itself (`httpx.AsyncClient`, routers/docint.py:107-115) is the parameter `send`. `None` stands for an exception the client raises (connection failure, the 60-second timeout), which the handler does not catch, so the request ends in the framework's 500. Which failures occur, and when the timeout fires, is not modelled.
- The blob upload and the connection-string lookup (routers/upload.py:14-18, 69-80) are the parameter `put`, whose failure text becomes the 500 detail; the `overwrite=False` policy belongs to the storage service.
- `os.getenv` is a lookup in the map `env`; `datetime.utcnow().strftime(...)` is the timestamp string `ts`.
- `urlparse` is the parameter `urlPath`; `None` stands for the exception the source catches. Which URLs it rejects is not modelled.
- Unicode NFKD normalisation is the parameter `nfkd`; the Unicode tables are not part of this model. The idempotence and fixed-point lemmas assume it leaves strings over `[A-Za-z0-9._-]` unchanged, as NFKD does.
- `base64.b64decode(..., validate=True)` is the parameter `b64decode`; decoding the upstream error body as UTF-8 with `ignore` is assumed done (`UpstreamResponse.body` is text).
- `secrets.compare_digest` is modelled as equality on ASCII strings and as the uncaught `TypeError` (a 500) when either string holds a non-ASCII character; its constant-time behaviour is not expressible here.
- JSON values other than strings and `null` are not modelled: each field is a string or absent. In the source, falsy non-strings (`0`, `false`, `[]`, `{}`) take the default, or give the 400 for `contentBase64`; a truthy non-string `contentType` gives the 415; a list or object `contentBase64` without a `","` element or key reaches `b64decode`, whose `TypeError` is caught as the 400, while one with such an element or key reaches `.split` and raises an uncaught `AttributeError` (a 500); a numeric `contentBase64` or a non-string `fileName` raises an uncaught exception (a 500). A body that is not a JSON object is not modelled either.
- Header lookups are by lower-case name; the framework's case-insensitive header matching is assumed.
- `main.py` (dotenv, the FastAPI app, CORS) is framework wiring. It mounts only the upload router, so the app does not serve the batch-start route; the model treats the router on its own.
- routers/docint.py has no spreadsheet export, result flattening or batch prefix, so none is modelled. `re`, `uuid` and `datetime` are imported there but unused.
- `DocInt.BatchBody` flattens the request body `{"azureBlobSource": {"containerUrl": …}, "resultContainerUrl": …, "overwriteExisting": true}` into three fields; the nesting and the JSON key names, which the reply echoes as `docIntRequest`, are not modelled.

=== FILE: docint.dfy ===
/** `POST /docint/batch/start`: starts a Document Intelligence `analyzeBatch`
    job over a blob container, guarded by a shared secret.

    The handler's collaborators are parameters:
    - `env`: the process environment, variable name to value;
    - `send`: the outbound HTTP POST, from the request that would be sent to
      the response that comes back (status, headers, body text), or `None`
      when the client raises instead (connection failure, the 60-second
      timeout), which the handler does not catch;
    - `urlPath`: the path component `urlparse` extracts from a URL, `None`
      when parsing raises.
 */
module DocInt {
  import opened Http
  import opened Strings

  type Env = map<string, string>

  const ApiVersion := "2024-11-30"
  const ModelId := "prebuilt-invoice"
  const DefaultSourceContainer := "invoicebatch"
  const DefaultResultContainer := "invoicebatch-result"
  const ExcerptLimit: nat := 500
  const TimeoutSeconds: nat := 60

  const SecretNotConfigured := HttpError(500, "FLOW_SHARED_SECRET nincs beállítva a szerveren.")
  const Unauthorized := HttpError(401, "Unauthorized")
  const MissingConfig := HttpError(500, "Hiányzó DOCINT_ENDPOINT / DOCINT_KEY / AZURE_STORAGE_ACCOUNT_NAME.")
  const UpstreamErrorPrefix := "Batch indítás hiba: "

  // ---------------------------------------------------------------------------
  // Container URLs

  const BlobHostSuffix := ".blob.core.windows.net/"

  /** `get_container_url`: `https://<account>.blob.core.windows.net/<container>`. */
  function ContainerUrl(account: string, container: string): (r: string)
    ensures |r| == 8 + |account| + |BlobHostSuffix| + |container|
    ensures r[..8] == "https://"
    ensures r[8..8 + |account|] == account
    ensures r[8 + |account|..|r| - |container|] == BlobHostSuffix
    ensures r[|r| - |container|..] == container
  {
    "https://" + account + BlobHostSuffix + container
  }

  /** Distinct (account, container) pairs give distinct URLs, as long as
      account names contain no `.` (storage account names are letters and
      digits only). */
  lemma ContainerUrlInjective(a1: string, c1: string, a2: string, c2: string)
    requires '.' !in a1 && '.' !in a2
    requires ContainerUrl(a1, c1) == ContainerUrl(a2, c2)
    ensures a1 == a2 && c1 == c2
  {
    var u := ContainerUrl(a1, c1);
    if |a1| < |a2| {
      AccountEndsAtDot(a1, c1, a2, c2);
    } else if |a2| < |a1| {
      AccountEndsAtDot(a2, c2, a1, c1);
    }
    assert a1 == u[8..8 + |a1|] == a2;
    assert c1 == u[|u| - |c1|..] == c2;
  }

  /** In equal URLs, a shorter account is followed by the `.` of the host
      suffix at the place where the longer account still has a character. */
  lemma AccountEndsAtDot(a1: string, c1: string, a2: string, c2: string)
    requires |a1| < |a2|
    requires ContainerUrl(a1, c1) == ContainerUrl(a2, c2)
    ensures a2[|a1|] == '.'
  {
    var u := ContainerUrl(a1, c1);
    assert u[8 + |a1|] == u[8 + |a1|..|u| - |c1|][0];
    assert u[8 + |a1|] == u[8..8 + |a2|][|a1|];
  }

  // ---------------------------------------------------------------------------
  // Result id

  /** The last segment of a URL path once trailing `/` are removed:
      `path.rstrip("/").split("/")[-1]`. */
  function ResultIdFromPath(path: string): (r: string)
    ensures '/' !in r
    ensures var t := TrimEnd(path, {'/'});
            && |r| <= |t| && r == t[|t| - |r|..]
            && (|r| < |t| ==> t[|t| - |r| - 1] == '/')
  {
    AfterLast(TrimEnd(path, {'/'}), '/')
  }

  /** `extract_result_id`: the result id from an `operation-location` URL, or
      the empty string when the URL cannot be parsed. */
  function ExtractResultId(location: string, urlPath: string -> Option<string>): (r: string)
    ensures '/' !in r
    ensures urlPath(location).None? ==> r == ""
    ensures urlPath(location).Some? ==> r == ResultIdFromPath(urlPath(location).value)
  {
    match urlPath(location)
    case None => ""
    case Some(path) => ResultIdFromPath(path)
  }

  /** A path ending in a non-empty, slash-free segment yields that segment. */
  lemma ResultIdIsLastSegment(p: string, s: string)
    requires s != [] && '/' !in s
    ensures ResultIdFromPath(p + "/" + s) == s
  {
    var t := p + "/" + s;
    assert t[|t| - 1] == s[|s| - 1];
    assert TrimEnd(t, {'/'}) == t;
    assert t == p + ['/'] + s;
    AfterLastJoin(p, s, '/');
    AfterLastWithout(s, '/');
  }

  /** Trailing slashes are irrelevant. */
  lemma ResultIdIgnoresTrailingSlash(p: string)
    ensures ResultIdFromPath(p + "/") == ResultIdFromPath(p)
  {
    TrimEndAppend(p, '/', {'/'});
  }

  // ---------------------------------------------------------------------------
  // Shared secret

  /** `require_flow_secret` as a decision on the configured secret and the
      `x-flow-secret` header value (the header defaults to `""`). An unset
      secret is a server error whatever the caller sends, and a missing
      header is 401. Otherwise `secrets.compare_digest` compares the two
      strings; it raises `TypeError` on a string with a non-ASCII character,
      which nothing catches, so the request ends in a 500. Between ASCII
      strings, only the exact secret passes and everything else is 401. */
  function CheckSecret(expected: string, provided: string): (r: Outcome)
    ensures expected == "" ==> r == Fail(SecretNotConfigured)
    ensures expected != "" && provided == "" ==> r == Fail(Unauthorized)
    ensures (expected != "" && provided != "" && !(AllAscii(expected) && AllAscii(provided)))
              ==> r == Fail(InternalServerError)
    ensures r.Pass? <==> expected != "" && AllAscii(expected) && provided == expected
    ensures (expected != "" && provided != "" && AllAscii(expected) && AllAscii(provided) && provided != expected)
              ==> r == Fail(Unauthorized)
  {
    if expected == "" then Fail(SecretNotConfigured)
    else if provided == "" then Fail(Unauthorized)
    else if !AllAscii(provided) || !AllAscii(expected) then Fail(InternalServerError)
    else if provided != expected then Fail(Unauthorized)
    else Pass
  }

  function RequireFlowSecret(env: Env, headers: Headers): (r: Outcome)
    ensures r.Pass? <==>
              && Lookup(env, "FLOW_SHARED_SECRET") != ""
              && AllAscii(Lookup(env, "FLOW_SHARED_SECRET"))
              && Lookup(headers, "x-flow-secret") == Lookup(env, "FLOW_SHARED_SECRET")
    ensures r.Fail? ==> r.error.status in {401, 500}
    ensures r.Fail? && r.error.status == 500 ==>
              Lookup(env, "FLOW_SHARED_SECRET") == "" || !AllAscii(Lookup(env, "FLOW_SHARED_SECRET")) || !AllAscii(Lookup(headers, "x-flow-secret"))
    ensures Lookup(env, "FLOW_SHARED_SECRET") == "" ==> r == Fail(SecretNotConfigured)
    ensures Lookup(env, "FLOW_SHARED_SECRET") != "" && Lookup(headers, "x-flow-secret") == "" ==> r == Fail(Unauthorized)
  {
    CheckSecret(Lookup(env, "FLOW_SHARED_SECRET"), Lookup(headers, "x-flow-secret"))
  }

  // ---------------------------------------------------------------------------
  // Configuration and the outbound request

  datatype BatchConfig = BatchConfig(
    endpoint: string,
    key: string,
    account: string,
    sourceContainer: string,
    resultContainer: string)

  /** The settings `start_invoice_batch` reads. The endpoint loses its
      trailing `/`; unset or empty container names fall back to the defaults. */
  function ReadBatchConfig(env: Env): (c: BatchConfig)
    ensures c.endpoint == TrimEnd(Lookup(env, "DOCINT_ENDPOINT"), {'/'})
    ensures c.key == Lookup(env, "DOCINT_KEY")
    ensures c.account == Lookup(env, "AZURE_STORAGE_ACCOUNT_NAME")
    ensures c.sourceContainer != "" && c.resultContainer != ""
    ensures Lookup(env, "AZURE_STORAGE_SOURCE_CONTAINER") == "" ==> c.sourceContainer == DefaultSourceContainer
    ensures Lookup(env, "AZURE_STORAGE_SOURCE_CONTAINER") != "" ==> c.sourceContainer == Lookup(env, "AZURE_STORAGE_SOURCE_CONTAINER")
    ensures Lookup(env, "AZURE_STORAGE_RESULT_CONTAINER") == "" ==> c.resultContainer == DefaultResultContainer
    ensures Lookup(env, "AZURE_STORAGE_RESULT_CONTAINER") != "" ==> c.resultContainer == Lookup(env, "AZURE_STORAGE_RESULT_CONTAINER")
  {
    BatchConfig(
      TrimEnd(Lookup(env, "DOCINT_ENDPOINT"), {'/'}),
      Lookup(env, "DOCINT_KEY"),
      Lookup(env, "AZURE_STORAGE_ACCOUNT_NAME"),
      OrElse(Lookup(env, "AZURE_STORAGE_SOURCE_CONTAINER"), DefaultSourceContainer),
      OrElse(Lookup(env, "AZURE_STORAGE_RESULT_CONTAINER"), DefaultResultContainer))
  }

  /** The JSON body of the `analyzeBatch` request. */
  datatype BatchBody = BatchBody(sourceContainerUrl: string, resultContainerUrl: string, overwriteExisting: bool)

  /** The outbound POST: URL, subscription-key header, content type, timeout and body. */
  datatype BatchRequest = BatchRequest(
    url: string,
    subscriptionKey: string,
    contentType: string,
    timeoutSeconds: nat,
    body: BatchBody)

  const AnalyzeBatchPath := "/documentintelligence/documentModels/" + ModelId + ":analyzeBatch?api-version=" + ApiVersion

  /** The request `start_invoice_batch` would send, or the configuration error
      raised before any request is built. */
  function BuildBatchRequest(c: BatchConfig): (r: Result<BatchRequest>)
    ensures r.Err? <==> c.endpoint == "" || c.key == "" || c.account == ""
    ensures r.Err? ==> r.error == MissingConfig
    ensures r.Ok? ==>
              && r.value.url == c.endpoint + AnalyzeBatchPath
              && r.value.subscriptionKey == c.key
              && r.value.contentType == "application/json"
              && r.value.timeoutSeconds == TimeoutSeconds
              && r.value.body == BatchBody(ContainerUrl(c.account, c.sourceContainer), ContainerUrl(c.account, c.resultContainer), true)
  {
    if c.endpoint == "" || c.key == "" || c.account == "" then Err(MissingConfig)
    else
      Ok(BatchRequest(
        c.endpoint + AnalyzeBatchPath,
        c.key,
        "application/json",
        TimeoutSeconds,
        BatchBody(ContainerUrl(c.account, c.sourceContainer), ContainerUrl(c.account, c.resultContainer), true)))
  }

  // ---------------------------------------------------------------------------
  // The upstream response

  /** What the Document Intelligence service answered; `body` is the response
      bytes already decoded as UTF-8 with undecodable bytes dropped. */
  datatype UpstreamResponse = UpstreamResponse(status: int, headers: Headers, body: string)

  /** Only 2xx answers are success; any other status is passed through with
      at most 500 characters of the answer's body. */
  function CheckUpstream(res: UpstreamResponse): (r: Outcome)
    ensures r.Pass? <==> 200 <= res.status < 300
    ensures r.Fail? ==> r.error.status == res.status
    ensures r.Fail? ==>
              && |UpstreamErrorPrefix| <= |r.error.detail| <= |UpstreamErrorPrefix| + ExcerptLimit
              && var excerpt := r.error.detail[|UpstreamErrorPrefix|..];
              && r.error.detail == UpstreamErrorPrefix + excerpt
              && |excerpt| <= |res.body| && excerpt == res.body[..|excerpt|]
              && (|res.body| <= ExcerptLimit ==> excerpt == res.body)
              && (|res.body| > ExcerptLimit ==> |excerpt| == ExcerptLimit)
  {
    if res.status < 200 || res.status >= 300 then
      Fail(HttpError(res.status, UpstreamErrorPrefix + Take(res.body, ExcerptLimit)))
    else Pass
  }

  // ---------------------------------------------------------------------------
  // The handler

  /** The flow-friendly JSON reply of a started batch. */
  datatype BatchReply = BatchReply(
    ok: bool,
    operationLocation: string,
    resultId: string,
    sourceContainer: string,
    resultContainer: string,
    docIntRequest: BatchBody)

  /** `start_invoice_batch`: secret first, then configuration, then the POST,
      then the status check; a started batch reports its result id. */
  function StartBatch(
    env: Env,
    headers: Headers,
    send: BatchRequest -> Option<UpstreamResponse>,
    urlPath: string -> Option<string>
  ): (r: Result<BatchReply>)
    // The secret is checked before anything else.
    ensures RequireFlowSecret(env, headers).Fail? ==> r == Err(RequireFlowSecret(env, headers).error)
    // With the secret accepted, an incomplete configuration is a 500.
    ensures (RequireFlowSecret(env, headers).Pass? && BuildBatchRequest(ReadBatchConfig(env)).Err?)
              ==> r == Err(MissingConfig)
    // A request that never got an answer is an unhandled exception.
    ensures (&& RequireFlowSecret(env, headers).Pass?
             && BuildBatchRequest(ReadBatchConfig(env)).Ok?
             && send(BuildBatchRequest(ReadBatchConfig(env)).value).None?)
              ==> r == Err(InternalServerError)
    // A started batch: the request went out with overwrite on and the
    // configured containers, the service answered 2xx, and the reply
    // carries the header, its result id and the body that was sent.
    ensures r.Ok? ==>
              && BuildBatchRequest(ReadBatchConfig(env)).Ok?
              && var req := BuildBatchRequest(ReadBatchConfig(env)).value;
              && send(req).Some?
              && var res := send(req).value;
              && 200 <= res.status < 300
              && r.value.ok
              && r.value.docIntRequest == req.body
              && r.value.docIntRequest.overwriteExisting
              && r.value.sourceContainer == ReadBatchConfig(env).sourceContainer
              && r.value.resultContainer == ReadBatchConfig(env).resultContainer
              && r.value.operationLocation == Lookup(res.headers, "operation-location")
              && r.value.resultId == ExtractResultId(r.value.operationLocation, urlPath)
    // An upstream failure keeps the upstream status.
    ensures r.Err? && r.error.status !in {401, 500} ==>
              && BuildBatchRequest(ReadBatchConfig(env)).Ok?
              && send(BuildBatchRequest(ReadBatchConfig(env)).value).Some?
              && r.error.status == send(BuildBatchRequest(ReadBatchConfig(env)).value).value.status
    // An answer outside 2xx to an authorised, configured request is the
    // upstream error: its status, the prefix and the body excerpt.
    ensures (&& RequireFlowSecret(env, headers).Pass?
             && BuildBatchRequest(ReadBatchConfig(env)).Ok?
             && send(BuildBatchRequest(ReadBatchConfig(env)).value).Some?
             && CheckUpstream(send(BuildBatchRequest(ReadBatchConfig(env)).value).value).Fail?)
              ==> r == Err(CheckUpstream(send(BuildBatchRequest(ReadBatchConfig(env)).value).value).error)
  {
    match RequireFlowSecret(env, headers)
    case Fail(e) => Err(e)
    case Pass =>
      var c := ReadBatchConfig(env);
      match BuildBatchRequest(c)
      case Err(e) => Err(e)
      case Ok(req) =>
        match send(req)
        case None => Err(InternalServerError)
        case Some(res) =>
          match CheckUpstream(res)
          case Fail(e) => Err(e)
          case Pass =>
            var location := Lookup(res.headers, "operation-location");
            Ok(BatchReply(true, location, ExtractResultId(location, urlPath), c.sourceContainer, c.resultContainer, req.body))
  }

  /** A batch is started exactly when the secret is accepted, the
      configuration is complete, and the service answers the request with a
      2xx status. */
  lemma StartedExactlyOn2xx(
    env: Env,
    headers: Headers,
    send: BatchRequest -> Option<UpstreamResponse>,
    urlPath: string -> Option<string>
  )
    ensures StartBatch(env, headers, send, urlPath).Ok? <==>
              && RequireFlowSecret(env, headers).Pass?
              && BuildBatchRequest(ReadBatchConfig(env)).Ok?
              && var answer := send(BuildBatchRequest(ReadBatchConfig(env)).value);
              && answer.Some?
              && 200 <= answer.value.status < 300
  {
  }

  /** A request rejected for its secret or for the configuration never reaches
      the service: the outcome is the same whatever the service would answer. */
  lemma RejectedBeforeSending(
    env: Env,
    headers: Headers,
    send1: BatchRequest -> Option<UpstreamResponse>,
    send2: BatchRequest -> Option<UpstreamResponse>,
    urlPath: string -> Option<string>
  )
    requires RequireFlowSecret(env, headers).Fail? || BuildBatchRequest(ReadBatchConfig(env)).Err?
    ensures StartBatch(env, headers, send1, urlPath) == StartBatch(env, headers, send2, urlPath)
    ensures StartBatch(env, headers, send1, urlPath).Err?
  {
  }

  /** A 2xx answer without an `operation-location` header still reports a
      started batch, with an empty result id (`urlparse("")` has the empty path). */
  lemma MissingLocationStillOk(
    env: Env,
    headers: Headers,
    send: BatchRequest -> Option<UpstreamResponse>,
    urlPath: string -> Option<string>
  )
    requires RequireFlowSecret(env, headers).Pass?
    requires BuildBatchRequest(ReadBatchConfig(env)).Ok?
    requires var answer := send(BuildBatchRequest(ReadBatchConfig(env)).value);
             answer.Some? && 200 <= answer.value.status < 300 && "operation-location" !in answer.value.headers
    requires urlPath("") == Some("")
    ensures StartBatch(env, headers, send, urlPath).Ok?
    ensures StartBatch(env, headers, send, urlPath).value.ok
    ensures StartBatch(env, headers, send, urlPath).value.operationLocation == ""
    ensures StartBatch(env, headers, send, urlPath).value.resultId == ""
  {
  }

  /** A non-2xx answer to a properly configured, authorised request is an
      error with the service's status, and its detail is the prefix followed
      by the first 500 characters of the answer's body. */
  lemma UpstreamFailurePassedThrough(
    env: Env,
    headers: Headers,
    send: BatchRequest -> Option<UpstreamResponse>,
    urlPath: string -> Option<string>
  )
    requires RequireFlowSecret(env, headers).Pass?
    requires BuildBatchRequest(ReadBatchConfig(env)).Ok?
    requires var answer := send(BuildBatchRequest(ReadBatchConfig(env)).value);
             answer.Some? && (answer.value.status < 200 || answer.value.status >= 300)
    ensures var res := send(BuildBatchRequest(ReadBatchConfig(env)).value).value;
            var r := StartBatch(env, headers, send, urlPath);
            && r.Err?
            && r == Err(CheckUpstream(res).error)
            && r.error.status == res.status
            && |r.error.detail| <= |UpstreamErrorPrefix| + ExcerptLimit
            && r.error.detail == UpstreamErrorPrefix + res.body[..if |res.body| <= ExcerptLimit then |res.body| else ExcerptLimit]
  {
  }
}

=== FILE: http.dfy ===
/** Error and outcome types shared by the two routers.

    Every `HTTPException` the routers raise becomes an `HttpError` carrying the
    status code and the detail text; a handler either returns a value (`Ok`) or
    stops with such an error (`Err`). Header collections are maps keyed by the
    lower-case header name, because the web framework compares header names
    case-insensitively.
 */
module Http {

  datatype HttpError = HttpError(status: int, detail: string)

  /** The result of a handler: a response value or the error it was stopped with. */
  datatype Result<+T> = Ok(value: T) | Err(error: HttpError)

  /** A check that either lets the request through or stops it with an error. */
  datatype Outcome = Pass | Fail(error: HttpError)

  /** The framework's reply when a handler raises an exception it does not
      catch (a plain-text 500). */
  const InternalServerError := HttpError(500, "Internal Server Error")

  /** An optional value: an absent JSON key or `null`, a failed decode, a missing result. */
  datatype Option<+T> = None | Some(value: T)

  /** Header name (lower case) to header value. */
  type Headers = map<string, string>

  /** A lookup in a string map that reads a missing key as the empty string:
      `headers.get(name, "")` for headers, and `os.getenv(name)` followed by
      `or ""` for the environment. */
  function Lookup(m: map<string, string>, key: string): (v: string)
    ensures key in m ==> v == m[key]
    ensures key !in m ==> v == ""
  {
    if key in m then m[key] else ""
  }
}

=== FILE: slug.dfy ===
/** `slugify_filename`: turns an uploaded file name into a safe blob-name part.

    The pipeline, stage by stage:
    1. keep only the last path component (after the last `\`, then after the last `/`);
    2. Unicode NFKD normalisation, then drop every non-ASCII character;
    3. replace each maximal run of characters outside `[A-Za-z0-9._-]` with one `_`;
    4. collapse each run of `_` into one `_`;
    5. strip `.`, `_` and `-` from both ends;
    6. fall back to `"file"` when nothing is left.

    The Unicode tables behind NFKD are not part of this model: the
    normalisation is the parameter `nfkd`. The output invariants (`IsSlug`)
    hold whatever `nfkd` returns.
 */
module Slug {
  import opened Strings

  /** The characters the slug alphabet `[A-Za-z0-9._-]` admits. */
  predicate SafeChar(c: char) {
    || ('A' <= c <= 'Z')
    || ('a' <= c <= 'z')
    || ('0' <= c <= '9')
    || c == '.' || c == '_' || c == '-'
  }

  predicate AllSafe(s: string) {
    forall i :: 0 <= i < |s| ==> SafeChar(s[i])
  }

  /** No two adjacent underscores. */
  predicate NoDoubleUnderscore(s: string) {
    forall i :: 0 <= i < |s| - 1 ==> s[i] != '_' || s[i + 1] != '_'
  }

  /** The characters stripped from both ends. */
  const EdgeChars: set<char> := {'.', '_', '-'}

  /** A well-formed slug: non-empty, over the safe alphabet, without `__`,
      and neither starting nor ending with `.`, `_` or `-`. */
  predicate IsSlug(s: string) {
    && |s| > 0
    && AllSafe(s)
    && NoDoubleUnderscore(s)
    && s[0] !in EdgeChars
    && s[|s| - 1] !in EdgeChars
  }

  /** Stage 1: the last path component, for both `\` and `/` separators.
      It is a separator-free suffix of the name that is either the whole
      name or follows a separator. */
  function LastComponent(name: string): (r: string)
    ensures '\\' !in r && '/' !in r
    ensures |r| <= |name| && r == name[|name| - |r|..]
    ensures |r| < |name| ==> (name[|name| - |r| - 1] == '/' || name[|name| - |r| - 1] == '\\')
  {
    var afterBackslash := AfterLast(name, '\\');
    var r := AfterLast(afterBackslash, '/');
    TwoSplits(name, afterBackslash, r);
    r
  }

  /** The last segment after `\`, then after `/`, is a separator-free suffix
      that is the whole name or follows one of the two separators. */
  lemma TwoSplits(name: string, u: string, r: string)
    requires |u| <= |name| && u == name[|name| - |u|..] && '\\' !in u
    requires |u| < |name| ==> name[|name| - |u| - 1] == '\\'
    requires |r| <= |u| && r == u[|u| - |r|..] && '/' !in r
    requires |r| < |u| ==> u[|u| - |r| - 1] == '/'
    ensures '\\' !in r && '/' !in r
    ensures |r| <= |name| && r == name[|name| - |r|..]
    ensures |r| < |name| ==> (name[|name| - |r| - 1] == '/' || name[|name| - |r| - 1] == '\\')
  {
    SuffixOfSuffix(name, u, r);
    SuffixKeepsAbsence(u, |u| - |r|, '\\');
  }

  /** A suffix of a suffix is a suffix; the character before it comes from
      the inner or the outer split. */
  lemma SuffixOfSuffix(s: string, u: string, r: string)
    requires |u| <= |s| && u == s[|s| - |u|..]
    requires |r| <= |u| && r == u[|u| - |r|..]
    ensures r == s[|s| - |r|..]
    ensures |r| < |u| ==> s[|s| - |r| - 1] == u[|u| - |r| - 1]
  {
    assert forall i :: 0 <= i < |r| ==> r[i] == u[|u| - |r| + i] == s[|s| - |r| + i];
  }

  lemma SuffixKeepsAbsence(s: string, k: nat, c: char)
    requires k <= |s| && c !in s
    ensures c !in s[k..]
  {
    assert forall i :: 0 <= i < |s| - k ==> s[k..][i] == s[k + i];
  }

  /** Stage 2 (second half): `encode("ascii", "ignore")` keeps exactly the
      ASCII characters, in order. */
  function AsciiOnly(s: string): (r: string)
    ensures AllAscii(r)
    ensures |r| <= |s|
    ensures |s| == 1 ==> (r == if s[0] as int < 128 then s else [])
  {
    if s == [] then []
    else if s[0] as int < 128 then [s[0]] + AsciiOnly(s[1..])
    else AsciiOnly(s[1..])
  }

  /** The encode works character by character: encoding a concatenation is
      concatenating the encodings, so (with the single-character case of
      `AsciiOnly`) exactly the ASCII characters survive, in order. */
  lemma {:induction false} AsciiOnlyAppend(s: string, t: string)
    ensures AsciiOnly(s + t) == AsciiOnly(s) + AsciiOnly(t)
    decreases |s|
  {
    if s == [] {
      assert s + t == t;
    } else {
      assert (s + t)[0] == s[0];
      assert (s + t)[1..] == s[1..] + t;
      AsciiOnlyAppend(s[1..], t);
    }
  }

  /** An ASCII string passes the encode unchanged. */
  lemma {:induction false} AsciiOnlyKeepsAscii(s: string)
    requires AllAscii(s)
    ensures AsciiOnly(s) == s
    decreases |s|
  {
    if s != [] {
      var tail := s[1..];
      assert AllAscii(tail) by {
        assert forall i :: 0 <= i < |tail| ==> tail[i] == s[i + 1];
      }
      AsciiOnlyKeepsAscii(tail);
      assert s == [s[0]] + tail;
    }
  }

  /** The characters of `s` other than `_`, in order. */
  function WithoutUnderscores(s: string): string {
    if s == [] then []
    else (if s[0] == '_' then [] else [s[0]]) + WithoutUnderscores(s[1..])
  }

  /** The characters of `s` in the slug alphabet other than `_`, in order. */
  function SafeWithoutUnderscores(s: string): string {
    if s == [] then []
    else (if s[0] == '_' || !SafeChar(s[0]) then [] else [s[0]]) + SafeWithoutUnderscores(s[1..])
  }

  /** The rest of a run of unsafe characters: `s` without its leading unsafe ones. */
  function SkipUnsafe(s: string): (r: string)
    ensures |r| <= |s| && r == s[|s| - |r|..]
    ensures |r| > 0 ==> SafeChar(r[0])
  {
    if s != [] && !SafeChar(s[0]) then SkipUnsafe(s[1..]) else s
  }

  /** Skipping an unsafe run loses no safe character. */
  lemma {:induction false} SkipUnsafeKeepsSafeLetters(s: string)
    ensures SafeWithoutUnderscores(SkipUnsafe(s)) == SafeWithoutUnderscores(s)
    decreases |s|
  {
    if s != [] && !SafeChar(s[0]) {
      SkipUnsafeKeepsSafeLetters(s[1..]);
    }
  }

  /** Stage 3: `re.sub(r"[^A-Za-z0-9._-]+", "_", s)`. Scanning left to right,
      a safe character is copied and a maximal unsafe run becomes one `_`.
      Apart from underscores, the result holds exactly the safe characters
      of the input, in order. */
  function ReplaceUnsafeRuns(s: string): (r: string)
    ensures AllSafe(r)
    ensures WithoutUnderscores(r) == SafeWithoutUnderscores(s)
    ensures |r| <= |s|
    ensures |r| == 0 <==> |s| == 0
    decreases |s|
  {
    if s == [] then []
    else if SafeChar(s[0]) then [s[0]] + ReplaceUnsafeRuns(s[1..])
    else
      SkipUnsafeKeepsSafeLetters(s[1..]);
      "_" + ReplaceUnsafeRuns(SkipUnsafe(s[1..]))
  }

  /** A string over the slug alphabet has no unsafe run to replace. */
  lemma {:induction false} ReplaceKeepsSafe(s: string)
    requires AllSafe(s)
    ensures ReplaceUnsafeRuns(s) == s
    decreases |s|
  {
    if s != [] {
      var tail := s[1..];
      assert AllSafe(tail) by {
        assert forall i :: 0 <= i < |tail| ==> tail[i] == s[i + 1];
      }
      ReplaceKeepsSafe(tail);
      assert s == [s[0]] + tail;
    }
  }

  /** Skipping an unsafe run that ends before a safe character stops inside
      the first string: what follows is untouched. */
  lemma {:induction false} SkipUnsafeAppend(x: string, b: string)
    requires |x| > 0 && SafeChar(x[|x| - 1])
    ensures SkipUnsafe(x + b) == SkipUnsafe(x) + b
    ensures |SkipUnsafe(x)| > 0
    decreases |x|
  {
    if !SafeChar(x[0]) {
      assert (x + b)[1..] == x[1..] + b;
      SkipUnsafeAppend(x[1..], b);
    }
  }

  /** A run of unsafe characters followed by a safe start is skipped entirely. */
  lemma {:induction false} SkipUnsafeRun(u: string, b: string)
    requires forall i :: 0 <= i < |u| ==> !SafeChar(u[i])
    requires b == [] || SafeChar(b[0])
    ensures SkipUnsafe(u + b) == b
    decreases |u|
  {
    if u == [] {
      assert u + b == b;
    } else {
      assert (u + b)[1..] == u[1..] + b;
      SkipUnsafeRun(u[1..], b);
    }
  }

  /** The replacement splits after a safe character: no unsafe run crosses
      the cut, so each side is replaced on its own. */
  lemma {:induction false} ReplaceUnsafeRunsSplit(a: string, b: string)
    requires a == [] || SafeChar(a[|a| - 1])
    ensures ReplaceUnsafeRuns(a + b) == ReplaceUnsafeRuns(a) + ReplaceUnsafeRuns(b)
    decreases |a|
  {
    if a == [] {
      assert a + b == b;
    } else {
      var s := a + b;
      assert s[0] == a[0] && s[1..] == a[1..] + b;
      var head, rest, restB;
      if SafeChar(a[0]) {
        head, rest, restB := [a[0]], a[1..], a[1..] + b;
      } else {
        SkipUnsafeAppend(a[1..], b);
        head, rest, restB := "_", SkipUnsafe(a[1..]), SkipUnsafe(a[1..] + b);
        assert rest[|rest| - 1] == a[|a| - 1];
      }
      ReplaceStep(a);
      ReplaceStep(s);
      assert restB == rest + b;
      ReplaceUnsafeRunsSplit(rest, b);
      Associative(head, ReplaceUnsafeRuns(rest), ReplaceUnsafeRuns(b));
    }
  }

  /** One scanning step of `ReplaceUnsafeRuns` on a non-empty string; it and
      `Associative` keep the proof of `ReplaceUnsafeRunsSplit` small enough
      for the solver. */
  lemma ReplaceStep(s: string)
    requires |s| > 0
    ensures SafeChar(s[0]) ==> ReplaceUnsafeRuns(s) == [s[0]] + ReplaceUnsafeRuns(s[1..])
    ensures !SafeChar(s[0]) ==> ReplaceUnsafeRuns(s) == "_" + ReplaceUnsafeRuns(SkipUnsafe(s[1..]))
  {
  }

  // Named so that `ReplaceUnsafeRunsSplit` can regroup its pieces cheaply.
  lemma Associative(x: string, y: string, z: string)
    ensures x + (y + z) == (x + y) + z
  {
  }

  /** A maximal run of unsafe characters becomes exactly one `_`. */
  lemma {:induction false} ReplaceUnsafeRunsRun(u: string, b: string)
    requires |u| > 0 && forall i :: 0 <= i < |u| ==> !SafeChar(u[i])
    requires b == [] || SafeChar(b[0])
    ensures ReplaceUnsafeRuns(u + b) == "_" + ReplaceUnsafeRuns(b)
  {
    assert (u + b)[0] == u[0];
    assert (u + b)[1..] == u[1..] + b;
    SkipUnsafeRun(u[1..], b);
  }

  /** Stage 4: `re.sub(r"_+", "_", s)`. Every run of `_` shrinks to one `_`:
      an underscore followed by another underscore is dropped, and any other
      character is kept. */
  function CollapseUnderscores(s: string): (r: string)
    ensures NoDoubleUnderscore(r)
    ensures WithoutUnderscores(r) == WithoutUnderscores(s)
    ensures AllSafe(s) ==> AllSafe(r)
    ensures |r| <= |s|
    ensures |s| > 0 ==> |r| > 0 && r[0] == s[0]
    decreases |s|
  {
    if |s| == 0 then []
    else if |s| >= 2 && s[0] == '_' && s[1] == '_' then
      CollapseUnderscores(s[1..])
    else
      var tail := CollapseUnderscores(s[1..]);
      var r := [s[0]] + tail;
      assert forall i :: 1 <= i < |r| ==> r[i] == tail[i - 1];
      r
  }

  /** A string without `__` has nothing to collapse. */
  lemma {:induction false} CollapseKeepsClean(s: string)
    requires NoDoubleUnderscore(s)
    ensures CollapseUnderscores(s) == s
    decreases |s|
  {
    if s != [] {
      var tail := s[1..];
      assert NoDoubleUnderscore(tail) by {
        assert forall i :: 0 <= i < |tail| ==> tail[i] == s[i + 1];
      }
      CollapseKeepsClean(tail);
      assert s == [s[0]] + tail;
    }
  }

  /** The collapse splits after a character other than `_`: no run of `_`
      crosses the cut, so each side is collapsed on its own. */
  lemma {:induction false} CollapseUnderscoresSplit(a: string, b: string)
    requires a == [] || a[|a| - 1] != '_'
    ensures CollapseUnderscores(a + b) == CollapseUnderscores(a) + CollapseUnderscores(b)
    decreases |a|
  {
    if a == [] {
      assert a + b == b;
    } else {
      var s := a + b;
      assert s[0] == a[0];
      assert s[1..] == a[1..] + b;
      if |a| == 1 {
        assert a[1..] == [];
      } else {
        assert s[1] == a[1];
        CollapseUnderscoresSplit(a[1..], b);
      }
    }
  }

  /** A non-empty run of `_` not followed by another `_` becomes exactly one `_`. */
  lemma {:induction false} CollapseUnderscoresRun(u: string, b: string)
    requires |u| > 0 && forall i :: 0 <= i < |u| ==> u[i] == '_'
    requires b == [] || b[0] != '_'
    ensures CollapseUnderscores(u + b) == "_" + CollapseUnderscores(b)
    decreases |u|
  {
    var s := u + b;
    assert s[0] == '_';
    assert s[1..] == u[1..] + b;
    if |u| == 1 {
      assert s[1..] == b;
    } else {
      assert s[1] == '_';
      CollapseUnderscoresRun(u[1..], b);
    }
  }

  /** Safety and the absence of `__` carry over to every contiguous piece. */
  lemma InfixKeepsSlugShape(s: string, a: nat, t: string)
    requires a + |t| <= |s| && t == s[a..a + |t|]
    ensures AllSafe(s) ==> AllSafe(t)
    ensures NoDoubleUnderscore(s) ==> NoDoubleUnderscore(t)
  {
    assert forall i :: 0 <= i < |t| ==> t[i] == s[a + i];
  }

  lemma StripKeepsSlugShape(s: string)
    ensures AllSafe(s) ==> AllSafe(Strip(s, EdgeChars))
    ensures NoDoubleUnderscore(s) ==> NoDoubleUnderscore(Strip(s, EdgeChars))
  {
    InfixKeepsSlugShape(s, StripStart(s, EdgeChars), Strip(s, EdgeChars));
  }

  /** Stages 2 to 5, applied to one path component. */
  function SanitizeComponent(component: string, nfkd: string -> string): (r: string)
    ensures AllSafe(r) && NoDoubleUnderscore(r)
    ensures |r| > 0 ==> r[0] !in EdgeChars && r[|r| - 1] !in EdgeChars
  {
    var collapsed := CollapseUnderscores(ReplaceUnsafeRuns(AsciiOnly(nfkd(component))));
    StripKeepsSlugShape(collapsed);
    Strip(collapsed, EdgeChars)
  }

  /** The name after stages 1 to 5, before the `"file"` fallback. */
  function Sanitize(name: string, nfkd: string -> string): (r: string)
    ensures AllSafe(r) && NoDoubleUnderscore(r)
    ensures |r| > 0 ==> r[0] !in EdgeChars && r[|r| - 1] !in EdgeChars
  {
    SanitizeComponent(LastComponent(name), nfkd)
  }

  /** `slugify_filename(name)`. Whatever the name and whatever the
      normalisation returns, the result is a well-formed slug; in particular
      it contains neither `/` nor `\`. */
  function Slugify(name: string, nfkd: string -> string): (r: string)
    ensures IsSlug(r)
    ensures '/' !in r && '\\' !in r
    ensures Sanitize(name, nfkd) == "" ==> r == "file"
    ensures Sanitize(name, nfkd) != "" ==> r == Sanitize(name, nfkd)
  {
    var s := Sanitize(name, nfkd);
    var r := if s == "" then FallbackIsSlug(); "file" else s;
    SafeHasNoSeparator(r);
    r
  }

  lemma SafeHasNoSeparator(s: string)
    requires AllSafe(s)
    ensures '/' !in s && '\\' !in s
  {
    assert forall i :: 0 <= i < |s| ==> s[i] != '/' && s[i] != '\\';
  }

  lemma FallbackIsSlug()
    ensures IsSlug("file")
  {
    var f := "file";
    assert f[0] == 'f' && f[1] == 'i' && f[2] == 'l' && f[3] == 'e';
  }

  /** Normalisations that leave strings over the slug alphabet alone, as NFKD does. */
  ghost predicate FixesSafeStrings(nfkd: string -> string) {
    forall s :: AllSafe(s) ==> nfkd(s) == s
  }

  /** The slugs are exactly the names `Slugify` leaves unchanged. */
  lemma SlugifyFixedPoints(s: string, nfkd: string -> string)
    requires FixesSafeStrings(nfkd)
    ensures Slugify(s, nfkd) == s <==> IsSlug(s)
  {
    if IsSlug(s) {
      AfterLastWithout(s, '\\');
      AfterLastWithout(s, '/');
      assert LastComponent(s) == s;
      assert AllAscii(s);
      AsciiOnlyKeepsAscii(s);
      ReplaceKeepsSafe(s);
      CollapseKeepsClean(s);
    }
  }

  /** Slugifying twice is slugifying once. */
  lemma SlugifyIdempotent(name: string, nfkd: string -> string)
    requires FixesSafeStrings(nfkd)
    ensures Slugify(Slugify(name, nfkd), nfkd) == Slugify(name, nfkd)
  {
    SlugifyFixedPoints(Slugify(name, nfkd), nfkd);
  }

  /** Only the last path component matters: a directory part before `/` or
      before `\` is ignored. */
  lemma SlugifyIgnoresDirectory(dir: string, name: string, nfkd: string -> string)
    ensures Slugify(dir + "/" + name, nfkd) == Slugify(name, nfkd)
    ensures Slugify(dir + "\\" + name, nfkd) == Slugify(name, nfkd)
  {
    assert Sanitize(dir + "/" + name, nfkd) == Sanitize(name, nfkd) by {
      LastComponentIgnoresDirectory(dir, name);
    }
    assert Sanitize(dir + "\\" + name, nfkd) == Sanitize(name, nfkd) by {
      LastComponentIgnoresDirectory(dir, name);
    }
  }

  lemma LastComponentIgnoresDirectory(dir: string, name: string)
    ensures LastComponent(dir + "/" + name) == LastComponent(name)
    ensures LastComponent(dir + "\\" + name) == LastComponent(name)
  {
    AfterLastJoin(dir, name, '\\');
    assert dir + "\\" + name == dir + ['\\'] + name;
    if '\\' !in name {
      AfterLastWithout(name, '\\');
      AfterLastAppend(dir + "/", name, '\\');
      AfterLastAppend(dir, "/", '\\');
      assert dir + "/" + name == (dir + "/") + name;
      AfterLastJoin(AfterLast(dir, '\\'), name, '/');
      assert AfterLast(dir, '\\') + "/" + name == AfterLast(dir, '\\') + ['/'] + name;
    } else {
      AfterLastPresent(dir + "/", name, '\\');
      assert dir + "/" + name == (dir + "/") + name;
    }
  }
}

=== FILE: strings.dfy ===
/** The Python string operations the routers rely on, over `seq<char>`.

    - `AfterLast(s, c)` is `s.split(c)[-1]`;
    - `AfterFirst(s, c)` is `s.split(c, 1)[1]` (defined only when `c` occurs);
    - `TrimStart`, `TrimEnd` and `Strip` are `lstrip`, `rstrip` and `strip`
      with an explicit set of characters;
    - `Take(s, n)` is the slice `s[:n]`;
    - `OrElse(s, d)` is the expression `s or d` on strings.
 */
module Strings {

  /** The index of the last `c` in `s`, or -1 when `c` does not occur. */
  function LastIndexOf(s: string, c: char): (i: int)
    ensures -1 <= i < |s|
    ensures i >= 0 ==> s[i] == c
    ensures forall j :: i < j < |s| ==> s[j] != c
  {
    if s == [] then -1
    else if s[|s| - 1] == c then |s| - 1
    else LastIndexOf(s[..|s| - 1], c)
  }

  /** The last segment of `s` when split at `c`: what follows the last `c`,
      or the whole of `s` when `c` does not occur. The three postconditions
      determine the result uniquely (see `AfterLastUnique`). */
  function AfterLast(s: string, c: char): (r: string)
    ensures c !in r
    ensures |r| <= |s| && r == s[|s| - |r|..]
    ensures |r| < |s| ==> s[|s| - |r| - 1] == c
  {
    s[LastIndexOf(s, c) + 1..]
  }

  /** Any suffix of `s` free of `c` and either the whole of `s` or preceded by
      `c` is the last segment. */
  lemma AfterLastUnique(s: string, c: char, k: nat)
    requires k <= |s|
    requires c !in s[k..]
    requires k == 0 || s[k - 1] == c
    ensures AfterLast(s, c) == s[k..]
  {
  }

  /** A string without `c` is its own last segment. */
  lemma AfterLastWithout(s: string, c: char)
    requires c !in s
    ensures AfterLast(s, c) == s
  {
    AfterLastUnique(s, c, 0);
  }

  /** Whatever stands before a separator does not affect the last segment. */
  lemma AfterLastJoin(p: string, s: string, c: char)
    ensures AfterLast(p + [c] + s, c) == AfterLast(s, c)
  {
    var t := p + [c] + s;
    var r := AfterLast(s, c);
    var k := |t| - |r|;
    assert t[k..] == r;
    if |r| < |s| {
      assert t[k - 1] == s[|s| - |r| - 1];
    } else {
      assert t[k - 1] == c;
    }
    AfterLastUnique(t, c, k);
  }

  /** Appending text without a separator extends the last segment. */
  lemma AfterLastAppend(p: string, s: string, c: char)
    requires c !in s
    ensures AfterLast(p + s, c) == AfterLast(p, c) + s
  {
    var t := p + s;
    var r := AfterLast(p, c);
    var k := |p| - |r|;
    assert t[k..] == r + s;
    assert c !in t[k..];
    if k > 0 {
      assert t[k - 1] == p[k - 1];
    }
    AfterLastUnique(t, c, k);
  }

  /** Text before a segment that already holds a separator does not matter. */
  lemma AfterLastPresent(p: string, s: string, c: char)
    requires c in s
    ensures AfterLast(p + s, c) == AfterLast(s, c)
  {
    var t := p + s;
    var r := AfterLast(s, c);
    var k := |t| - |r|;
    assert t[k..] == r;
    assert t[k - 1] == s[|s| - |r| - 1];
    AfterLastUnique(t, c, k);
  }

  /** The index of the first `c` in `s`. */
  function FirstIndexOf(s: string, c: char): (i: nat)
    requires c in s
    ensures i < |s| && s[i] == c
    ensures forall j :: 0 <= j < i ==> s[j] != c
  {
    if s[0] == c then 0 else 1 + FirstIndexOf(s[1..], c)
  }

  /** What follows the first `c` in `s`. */
  function AfterFirst(s: string, c: char): (r: string)
    requires c in s
    ensures |r| < |s| && r == s[|s| - |r|..]
    ensures s[|s| - |r| - 1] == c
    ensures c !in s[..|s| - |r| - 1]
  {
    s[FirstIndexOf(s, c) + 1..]
  }

  /** Splitting `p + c + q` at its first `c` gives back `q` exactly when `p`
      is free of `c`; a `c` inside `p` makes the split keep part of `p`. */
  lemma AfterFirstJoin(p: string, q: string, c: char)
    ensures AfterFirst(p + [c] + q, c) == q <==> c !in p
  {
    var s := p + [c] + q;
    assert s[|p|] == c;
    if c !in p {
      assert forall j :: 0 <= j < |p| ==> s[j] == p[j];
      assert FirstIndexOf(s, c) == |p|;
      assert s[|p| + 1..] == q;
    } else {
      var k :| 0 <= k < |p| && p[k] == c;
      assert s[k] == c;
      assert FirstIndexOf(s, c) <= k;
      assert |AfterFirst(s, c)| > |q|;
    }
  }

  /** `s.lstrip(cs)`: the longest suffix of `s` that does not start with a
      character of `cs`. */
  function TrimStart(s: string, cs: set<char>): (r: string)
    ensures |r| <= |s| && r == s[|s| - |r|..]
    ensures |r| > 0 ==> r[0] !in cs
    ensures forall i :: 0 <= i < |s| - |r| ==> s[i] in cs
  {
    if s != [] && s[0] in cs then TrimStart(s[1..], cs) else s
  }

  /** `s.rstrip(cs)`: the longest prefix of `s` that does not end with a
      character of `cs`. */
  function TrimEnd(s: string, cs: set<char>): (r: string)
    ensures |r| <= |s| && r == s[..|r|]
    ensures |r| > 0 ==> r[|r| - 1] !in cs
    ensures forall i :: |r| <= i < |s| ==> s[i] in cs
  {
    if s != [] && s[|s| - 1] in cs then TrimEnd(s[..|s| - 1], cs) else s
  }

  /** Where `s.strip(cs)` starts: the number of leading characters of `s`
      that belong to `cs`. */
  function StripStart(s: string, cs: set<char>): (a: nat)
    ensures a <= |s|
    ensures forall i :: 0 <= i < a ==> s[i] in cs
    ensures a < |s| ==> s[a] !in cs
  {
    |s| - |TrimStart(s, cs)|
  }

  /** `s.strip(cs)`: `s` without its leading and trailing characters from
      `cs`. The result is the piece of `s` starting at `StripStart(s, cs)`;
      everything before and after it is in `cs`, and its own ends are not. */
  function Strip(s: string, cs: set<char>): (r: string)
    ensures |r| <= |s|
    ensures |r| > 0 ==> r[0] !in cs && r[|r| - 1] !in cs
    ensures StripStart(s, cs) + |r| <= |s| && r == s[StripStart(s, cs)..StripStart(s, cs) + |r|]
    ensures forall i :: StripStart(s, cs) + |r| <= i < |s| ==> s[i] in cs
    ensures (|s| == 0 || (s[0] !in cs && s[|s| - 1] !in cs)) ==> r == s
  {
    var t := TrimStart(s, cs);
    var r := TrimEnd(t, cs);
    PrefixOfSuffix(s, t, r, cs);
    assert |r| > 0 ==> r[0] == t[0];
    r
  }

  /** A prefix `r` of a suffix `t` of `s` is the piece of `s` after the
      characters `t` left out; when the rest of `t` is in `cs`, so is the
      rest of `s`. */
  lemma PrefixOfSuffix(s: string, t: string, r: string, cs: set<char>)
    requires |t| <= |s| && t == s[|s| - |t|..]
    requires |r| <= |t| && r == t[..|r|]
    requires forall i :: |r| <= i < |t| ==> t[i] in cs
    ensures |s| - |t| + |r| <= |s|
    ensures r == s[|s| - |t|..|s| - |t| + |r|]
    ensures forall i :: |s| - |t| + |r| <= i < |s| ==> s[i] in cs
  {
    var a := |s| - |t|;
    assert forall i :: 0 <= i < |t| ==> t[i] == s[a + i];
    assert forall i :: a + |r| <= i < |s| ==> s[i] == t[i - a];
  }

  /** Trailing separators do not survive `rstrip`. */
  lemma TrimEndAppend(s: string, c: char, cs: set<char>)
    requires c in cs
    ensures TrimEnd(s + [c], cs) == TrimEnd(s, cs)
  {
    assert (s + [c])[..|s + [c]| - 1] == s;
  }

  /** The slice `s[:n]`: the first `n` characters, or all of `s` when shorter. */
  function Take(s: string, n: nat): (r: string)
    ensures |r| <= |s| && r == s[..|r|]
    ensures |r| <= n
    ensures |s| <= n ==> r == s
    ensures |s| > n ==> |r| == n
  {
    if |s| <= n then s else s[..n]
  }

  /** Every character of `s` is ASCII (code point below 128). */
  predicate AllAscii(s: string) {
    forall i :: 0 <= i < |s| ==> s[i] as int < 128
  }

  /** Python's `s or d` on strings: `d` replaces the empty string. */
  function OrElse(s: string, d: string): (r: string)
    ensures s != "" ==> r == s
    ensures s == "" ==> r == d
  {
    if s == "" then d else s
  }
}

=== FILE: upload.dfy ===
/** `POST /upload/invoice`: validates a JSON upload request, decodes the
    base64 payload and stores it under a timestamped, slugified blob name.

    The handler's collaborators are parameters:
    - `nfkd`: Unicode NFKD normalisation (see `Slug`);
    - `b64decode`: strict base64 decoding, `None` when the text is not valid base64;
    - `put`: the blob upload without overwrite, given the blob name, the bytes
      and the content type; `None` when the blob was written, otherwise the
      text of the exception (a missing connection string, an existing blob, a
      storage failure);
    - `ts`: the current UTC time already formatted as `%Y%m%d_%H%M%S`.
 */
module Upload {
  import opened Http
  import opened Strings
  import opened Slug

  newtype byte = x: int | 0 <= x < 256

  /** The fields of the JSON request body; `None` stands for an absent key or `null`. */
  datatype UploadBody = UploadBody(
    fileName: Option<string>,
    contentType: Option<string>,
    contentBase64: Option<string>)

  /** The JSON reply of a successful upload. */
  datatype UploadReply = UploadReply(ok: bool, container: string, blobName: string, size: nat)

  const ContainerName := "invoicebatch"
  const DefaultFileName := "invoice.pdf"
  const PdfContentType := "application/pdf"

  const MissingPayload := HttpError(400, "Hiányzik a 'contentBase64' mező.")
  const NotPdf := HttpError(415, "Csak PDF fájl feltöltése engedélyezett.")
  const InvalidBase64 := HttpError(400, "A 'contentBase64' nem érvényes base64.")
  const UploadFailedPrefix := "Blob feltöltés hiba: "

  /** `data.get(key) or default`: an absent, `null` or empty value is replaced. */
  function FieldOr(v: Option<string>, default: string): (r: string)
    ensures v.Some? && v.value != "" ==> r == v.value
    ensures v.None? || v.value == "" ==> r == default
  {
    match v
    case None => default
    case Some(s) => OrElse(s, default)
  }

  /** The payload handed to the decoder: a data-URL header such as
      `data:application/pdf;base64,` is cut off at the first comma; a payload
      without a comma is passed on unchanged. */
  function StripDataUrlPrefix(payload: string): (r: string)
    ensures ',' !in payload ==> r == payload
    ensures ',' in payload ==> |r| < |payload| && r == payload[|payload| - |r|..]
    ensures ',' in payload ==> payload[|payload| - |r| - 1] == ',' && ',' !in payload[..|payload| - |r| - 1]
  {
    if ',' in payload then AfterFirst(payload, ',') else payload
  }

  /** A data URL whose header has no comma yields exactly its payload, even
      when the payload itself contains commas. */
  lemma DataUrlPayloadRecovered(header: string, data: string)
    requires ',' !in header
    ensures StripDataUrlPrefix(header + "," + data) == data
  {
    assert header + "," + data == header + [','] + data;
    AfterFirstJoin(header, data, ',');
  }

  /** The name the upload is stored under: the timestamp, `_`, and the slug of
      the file name. Whatever the file name, the part after the timestamp is a
      well-formed slug. */
  function BlobName(ts: string, fileName: string, nfkd: string -> string): (r: string)
    ensures |r| > |ts| + 1 && r[..|ts|] == ts && r[|ts|] == '_'
    ensures IsSlug(r[|ts| + 1..])
  {
    var slug := Slugify(fileName, nfkd);
    JoinParts(ts, slug);
    ts + "_" + slug
  }

  lemma JoinParts(a: string, b: string)
    ensures var r := a + "_" + b;
            |r| == |a| + 1 + |b| && r[..|a|] == a && r[|a|] == '_' && r[|a| + 1..] == b
  {
    var r := a + "_" + b;
    assert r[..|a|] == a;
    assert r[|a| + 1..] == b;
  }

  /** With a separator-free timestamp, no blob name holds `/` or `\`,
      whatever file name the client sent. */
  lemma BlobNameHasNoSeparator(ts: string, fileName: string, nfkd: string -> string)
    requires '/' !in ts && '\\' !in ts
    ensures '/' !in BlobName(ts, fileName, nfkd) && '\\' !in BlobName(ts, fileName, nfkd)
  {
    var slug := Slugify(fileName, nfkd);
    assert BlobName(ts, fileName, nfkd) == ts + "_" + slug;
  }

  /** Two uploads with the same timestamp get the same blob name exactly when
      their file names slugify alike. */
  lemma BlobNameSeparatesSlugs(ts: string, f1: string, f2: string, nfkd: string -> string)
    ensures BlobName(ts, f1, nfkd) == BlobName(ts, f2, nfkd) <==> Slugify(f1, nfkd) == Slugify(f2, nfkd)
  {
    var b1, b2 := BlobName(ts, f1, nfkd), BlobName(ts, f2, nfkd);
    assert b1[|ts| + 1..] == Slugify(f1, nfkd);
    assert b2[|ts| + 1..] == Slugify(f2, nfkd);
  }

  /** The text handed to the base64 decoder: the payload field after the
      data-URL strip. */
  function DecoderInput(body: UploadBody): string {
    StripDataUrlPrefix(FieldOr(body.contentBase64, ""))
  }

  /** The blob name an upload of `body` at time `ts` is stored under. */
  function TargetName(body: UploadBody, ts: string, nfkd: string -> string): string {
    BlobName(ts, FieldOr(body.fileName, DefaultFileName), nfkd)
  }

  /** `upload_invoice`. The checks run in the source's order: payload
      present, then content type, then base64, then the upload itself. */
  function UploadInvoice(
    body: UploadBody,
    ts: string,
    nfkd: string -> string,
    b64decode: string -> Option<seq<byte>>,
    put: (string, seq<byte>, string) -> Option<string>
  ): (r: Result<UploadReply>)
    // A missing or empty payload is rejected first, whatever the content type.
    ensures FieldOr(body.contentBase64, "") == "" ==> r == Err(MissingPayload)
    // With a payload present, anything but a PDF (after the default) is refused.
    ensures (FieldOr(body.contentBase64, "") != "" && FieldOr(body.contentType, PdfContentType) != PdfContentType)
              ==> r == Err(NotPdf)
    // A PDF payload the decoder rejects is a 400.
    ensures (&& FieldOr(body.contentBase64, "") != ""
             && FieldOr(body.contentType, PdfContentType) == PdfContentType
             && b64decode(DecoderInput(body)).None?)
              ==> r == Err(InvalidBase64)
    // Decoded bytes the store refuses give a 500 carrying the store's error text.
    ensures (&& FieldOr(body.contentBase64, "") != ""
             && FieldOr(body.contentType, PdfContentType) == PdfContentType
             && b64decode(DecoderInput(body)).Some?
             && put(TargetName(body, ts, nfkd), b64decode(DecoderInput(body)).value, PdfContentType).Some?)
              ==> r == Err(HttpError(500, UploadFailedPrefix + put(TargetName(body, ts, nfkd), b64decode(DecoderInput(body)).value, PdfContentType).value))
    // Success means the decoder accepted the payload, the store accepted
    // those bytes under the slugified name, and the size is their count.
    ensures r.Ok? ==>
              && FieldOr(body.contentBase64, "") != ""
              && FieldOr(body.contentType, PdfContentType) == PdfContentType
              && b64decode(DecoderInput(body)).Some?
              && var bytes := b64decode(DecoderInput(body)).value;
              && r.value == UploadReply(true, ContainerName, TargetName(body, ts, nfkd), |bytes|)
              && put(r.value.blobName, bytes, PdfContentType).None?
    ensures r.Err? ==> r.error.status in {400, 415, 500}
    ensures r.Err? && r.error.status == 500 ==> |UploadFailedPrefix| <= |r.error.detail| && r.error.detail[..|UploadFailedPrefix|] == UploadFailedPrefix
  {
    var fileName := FieldOr(body.fileName, DefaultFileName);
    var contentType := FieldOr(body.contentType, PdfContentType);
    var payload := FieldOr(body.contentBase64, "");
    if payload == "" then Err(MissingPayload)
    else if contentType != PdfContentType then Err(NotPdf)
    else
      match b64decode(StripDataUrlPrefix(payload))
      case None => Err(InvalidBase64)
      case Some(bytes) =>
        var blobName := BlobName(ts, fileName, nfkd);
        match put(blobName, bytes, contentType)
        case Some(e) => Err(HttpError(500, UploadFailedPrefix + e))
        case None => Ok(UploadReply(true, ContainerName, blobName, |bytes|))
  }

  /** The upload goes through exactly when every collaborator accepts:
      a non-empty PDF payload that decodes, and a store that takes it. */
  lemma UploadSucceedsWhenAllAccept(
    body: UploadBody,
    ts: string,
    nfkd: string -> string,
    b64decode: string -> Option<seq<byte>>,
    put: (string, seq<byte>, string) -> Option<string>
  )
    ensures UploadInvoice(body, ts, nfkd, b64decode, put).Ok? <==>
              && FieldOr(body.contentBase64, "") != ""
              && FieldOr(body.contentType, PdfContentType) == PdfContentType
              && var decoded := b64decode(DecoderInput(body));
              && decoded.Some?
              && put(TargetName(body, ts, nfkd), decoded.value, PdfContentType).None?
  {
  }
}
